=== FILE: README.md ===
# LogiSmart dashboard: wallet ledger and mock payment gateway in Dafny

This project models the sequential core of the LogiSmart admin dashboard
script (`dashboard.js`) and proves its properties:

- **The wallet ledger.** The stored profile starts from a seed (balance 0,
  spending limit 200000, no transactions, no shipments). Four paths change it:
  - the top-up gateway handler;
  - the withdraw button;
  - checkout paid from the wallet (`createShipment`);
  - checkout paid through the gateway, which credits the price and then runs
    `createShipment`.

  Each path adds signed amounts to the balance and prepends transactions to
  the newest-first log. A top-up, a withdrawal or a wallet checkout
  prepends one; a gateway-funded checkout prepends two (the credit, then
  the shipment's debit above it). Module `Ledger` gives each path as a function on
  the record. The class `ProfileStore.Profile` holds `balance`,
  `transactions` and `shipments` as fields and performs the same paths in
  place. Each of its methods is specified by the matching `Ledger` function
  and keeps the invariant "balance = sum of logged amounts, balance ≥ 0".
  `Ledger.RunFromSeed` proves that invariant for every sequence of top-ups,
  withdrawals and checkouts.
- **The mock payment gateway** (`openMockGateway`). Module `Gateway` models
  it as a state machine: whether the modal is shown, whether Pay is disabled,
  whether the two-second timer is armed, and how many times the handler has
  run. `Step`/`Replay` give the machine as values. The class `MockGateway`
  is one opened gateway. Its methods `Pay`, `Close`, `ClickOverlay` and
  `TimerFires` are the events, so a user interleaving is a sequence of
  method calls. A gateway carries what its handler closure captured (the
  top-up amount or the checkout form), and `Profile.TopUpTimerFires` /
  `Profile.CheckoutTimerFires` apply the handler to it exactly when the
  timer hands over a receipt. The lemmas prove four things:
  - the handler runs at most once per opening;
  - it runs only after Pay and then the timer;
  - a dismissal before Pay cancels it for good;
  - a dismissal after Pay does not stop it.
- **Pure helpers.** These are:
  - the shipments page's status/date filter and its ten-row pagination
    (`ShipmentList`, with the page state `ListState`);
  - the dashboard's status counts and `getStatusClass` (`Status`);
  - the settings page's password rule and its first/last-name split and
    re-join (`Settings`).

Money is `real` (rupees), so sums are exact. A shipment price is an `int`,
because `Math.round` is modelled as `Floor(x + 0.5)`. The result of
`parseFloat` is an `Option<real>`, where `None` stands for NaN. The
following come from the clock or from `Math.random`, so every operation
takes them as parameters:
- the ISO timestamps;
- `Date.now()` (milliseconds);
- the random draws behind the tracking and transaction numbers;
- the random fragments of the gateway receipt.

Three behaviours of the script shape the model:
- **Amount validation.** The amount check lives in the two button handlers
  (dashboard.js:417 and 454). The top-up handler credits whatever amount
  passed that check.
- **Checkout without enough balance.** The checkout does not fail. It asks
  to pay through the gateway instead, whose handler credits the full price
  and then runs `createShipment`, which debits it. The balance ends where it
  was, and two transactions are logged.
- **Transaction signs.** A transaction's sign matches its type only while
  shipment weights are non-negative. The script does not reject a negative
  weight: see `Ledger.NegativeWeightDebitRaisesBalance` and
  `Ledger.RunKeepsSigns`.

## Model

| member | source | states |
|---|---|---|
| `Ledger.Post` | dashboard.js:429-430 | a posting adds the transaction's amount to the balance, prepends it to the log, and keeps balance = sum of the log |
| `Ledger.EnteredAmount` | dashboard.js:452-454 | an entered amount is accepted exactly when it is a number greater than 0 (NaN, 0 and negatives refused), and is then passed on unchanged |
| `Ledger.PaymentTxId` | dashboard.js:431 | a credit is logged under the receipt's payment id when it has one, else under an id starting "#PAY-" |
| `Ledger.CreditTopUp` | dashboard.js:427-438 | the top-up handler raises the balance by exactly the amount; it prepends one credit of +amount with status Success; older entries, shipments and limit are unchanged; the balance stays equal to the sum |
| `Ledger.Withdraw` | dashboard.js:450-469 | invalid amount, amount above balance, and no confirmation are each refused with balance and log unchanged (each outcome iff its condition); a confirmed withdrawal of a ≤ balance lowers the balance by a and prepends one debit of −a, Processed; the ledger invariant is kept |
| `Ledger.Round` | dashboard.js:607 | `Math.round` gives an integer within half a unit of its argument, halves rounding up |
| `Ledger.Weight` | dashboard.js:605 | a readable, non-zero weight is used as entered; NaN and 0 fall back to 0.5 |
| `Ledger.ShipmentPrice` | dashboard.js:605-607 | the price is the tariff (Express 350 + 100/kg, otherwise 150 + 50/kg) rounded to the nearest integer, halves up |
| `Ledger.TrackingNumber` | dashboard.js:611 | a draw in [0, 1) yields a tracking number in 1000..90999 |
| `Ledger.TxnNumber` | dashboard.js:626 | a draw in [0, 1) yields a transaction number in 1000..9999 |
| `Ledger.CreateShipment` | dashboard.js:609-633 | `createShipment` prepends the shipment; it lowers the balance by its price; it prepends one debit of −price, Completed, described "Shipment <id>"; the balance stays equal to the sum |
| `Ledger.Route` | dashboard.js:641-645 | checkout pays from the wallet iff the balance covers the price; otherwise it goes through the gateway iff the user confirms, else it is abandoned |
| `Ledger.DirectCheckout` | dashboard.js:641-642 | a wallet checkout prepends one Pending shipment for the sender at the price, lowers the balance by the price and prepends one Completed debit of −price; the balance stays equal to the sum |
| `Ledger.GatewayCheckout` | dashboard.js:656-671 | the gateway checkout handler leaves the balance at its old value; it prepends a debit of −price (newest) over a credit of +price; it prepends one Pending shipment at the price; older entries are kept |
| `Ledger.Step` | dashboard.js:413-675 | one user action only puts new entries in front of the log (at most two) and of the shipment list (at most one), keeps every older entry, and never changes the limit |
| `Ledger.Run` | dashboard.js:409-675 | over any sequence of actions no logged transaction or shipment is ever removed or rewritten, at most two entries per action are added, and the limit stays |
| `Ledger.StepKeepsConsistent` | dashboard.js:409-675 | every top-up, withdrawal or checkout keeps balance = sum of amounts and balance ≥ 0, and leaves the spending limit alone |
| `Ledger.RunKeepsConsistent` | dashboard.js:409-675 | every sequence of top-ups, withdrawals and checkouts from a consistent record keeps it consistent |
| `Ledger.RunFromSeed` | dashboard.js:16-20 | from the seed, every sequence of top-ups, withdrawals and checkouts leaves balance = sum of amounts, balance ≥ 0 and the limit at 200000 |
| `Ledger.PriceAtLeastBase` | dashboard.js:605-607 | with a non-negative weight a price is at least 350 (Express) or 150 (other services) |
| `Ledger.PriceMonotone` | dashboard.js:607 | under one service, a heavier parcel never costs less |
| `Ledger.DefaultWeightPrice` | dashboard.js:605-607 | an empty, unreadable or zero weight is priced as 0.5 kg: 400 Express, 175 otherwise |
| `Ledger.StepKeepsSigns` | dashboard.js:435-663 | an action with a non-negative weight keeps every credit positive and every debit negative |
| `Ledger.RunKeepsSigns` | dashboard.js:630-631 | while no checkout uses a negative weight, every logged credit is positive and every debit negative |
| `Ledger.NegativeWeightDebitRaisesBalance` | dashboard.js:605-631 | a −4 kg standard parcel costs −50; paying it from the wallet logs a "debit" of +50 and raises the balance by 50 |
| `Gateway.Opened` | dashboard.js:866-908 | a newly opened gateway shows its modal with Pay enabled, nothing armed and no handler call |
| `Gateway.Step` | dashboard.js:914-936 | no event re-shows the modal or re-enables Pay, the handler count grows by at most one, and the at-most-once invariant `Guarded` is kept; an armed timer's elapse removes the modal and disarms, an unarmed one changes nothing |
| `Gateway.Replay` | dashboard.js:914-936 | after any history of events: the modal stays gone once gone, Pay stays disabled once disabled, and `Guarded` holds if it held at the start |
| `Gateway.MakeReceipt` | dashboard.js:925-929 | the receipt holds three non-empty, pairwise distinct identifiers |
| `Gateway.ReplayAppend` | dashboard.js:910-937 | replaying two histories in a row is replaying their concatenation |
| `Gateway.HandlerAtMostOnce` | dashboard.js:919-936 | after any sequence of clicks and timer events the handler has run at most once (double clicks on Pay included) |
| `Gateway.HandlerOnlyAfterPay` | dashboard.js:919-933 | the timer is armed only after a Pay click, and the handler has run only if a Pay click precedes a timer event |
| `Gateway.CancelledStaysCancelled` | dashboard.js:914-917 | once the modal is gone with nothing armed and no call made, no event calls the handler |
| `Gateway.DismissBeforePayCancels` | dashboard.js:914-917 | a close or backdrop click with no Pay before it means the handler is never called, whatever follows |
| `Gateway.ProcessingUntilTimer` | dashboard.js:920-923 | once the timer is armed, clicks (closes included) keep it armed with no call made until the timer fires |
| `Gateway.PayThenTimerCallsHandler` | dashboard.js:914-936 | Pay while the modal is up, then any non-timer events (closes included), then the timer: the handler has run exactly once |
| `Gateway.MockGateway.Open` | dashboard.js:866-908 | opening shows the modal with Pay enabled, nothing armed and no call made, and keeps what the handler captured |
| `Gateway.MockGateway.Pay` | dashboard.js:919-923 | a Pay click on the shown, enabled button disables it and arms the timer; otherwise nothing changes; calls stay ≤ 1 |
| `Gateway.MockGateway.Close` | dashboard.js:914-916 | the close control removes the modal and leaves an armed timer armed |
| `Gateway.MockGateway.ClickOverlay` | dashboard.js:917 | an overlay click removes the modal only when its target is the backdrop |
| `Gateway.MockGateway.TimerFires` | dashboard.js:923-936 | the armed timer builds the receipt and hands it to the handler (when one was given) exactly then; that is the first and only call, and a gateway whose handler has run never hands over another; when the timer was armed, afterwards the modal is removed and the timer disarmed |
| `ProfileStore.Profile.constructor` | dashboard.js:16-20 | a first run starts from the seed, which satisfies the ledger invariant |
| `ProfileStore.Profile.TopUpHandler` | dashboard.js:427-443 | the top-up handler updates the record as `CreditTopUp`, keeping the invariant |
| `ProfileStore.Profile.Withdraw` | dashboard.js:450-477 | the withdraw button returns the outcome and updates the record as `Ledger.Withdraw`, keeping the invariant |
| `ProfileStore.Profile.CreateShipment` | dashboard.js:609-638 | `createShipment` updates the record as `Ledger.CreateShipment`, and the invariant holds afterwards |
| `ProfileStore.Profile.SubmitShipment` | dashboard.js:640-675 | enough balance: pays from the wallet as `DirectCheckout`; otherwise, if confirmed, opens a fresh gateway for price×100 paise with a handler capturing the form; otherwise changes nothing |
| `ProfileStore.Profile.GatewayCheckoutHandler` | dashboard.js:656-672 | the checkout gateway handler updates the record as `GatewayCheckout`, keeping the invariant |
| `ProfileStore.Profile.TopUpTimerFires` | dashboard.js:427-443 | when a top-up gateway's armed timer fires, the record is credited, as `CreditTopUp`, with the amount that gateway was opened for, under the receipt's id, once (the gateway's first handler call); otherwise the record is unchanged |
| `ProfileStore.Profile.CheckoutTimerFires` | dashboard.js:656-672 | when a checkout gateway's armed timer fires, the record changes as `GatewayCheckout` of the form that gateway was opened for, once; otherwise it is unchanged |
| `ProfileStore.RequestTopUp` | dashboard.js:413-446 | the add-money button opens a fresh gateway for amount×100 paise, with a handler capturing the amount, exactly when the entered amount is a number > 0 |
| `ProfileStore.ReceiptNamesTheCredit` | dashboard.js:431 | a credit made from a gateway receipt is logged under the receipt's payment id |
| `ShipmentList.Filter` | dashboard.js:183-188 | the filtered list is no longer than the input and every entry matches both set filters |
| `ShipmentList.FilterIsSubsequence` | dashboard.js:183-188 | the filtered list is an order-preserving sublist of the shipments |
| `ShipmentList.FilterCounts` | dashboard.js:183-188 | each shipment occurs in the result as often as in the input if it matches (status equal, date prefixed, each only if set) and never otherwise |
| `ShipmentList.FilterMembership` | dashboard.js:183-188 | a shipment is in the result iff it is in the input and matches |
| `ShipmentList.NoFiltersKeepAll` | dashboard.js:184-186 | with both filters empty the result is the whole list |
| `ShipmentList.TotalPages` | dashboard.js:208 | the page count is ceil(total / 10) |
| `ShipmentList.PageRows` | dashboard.js:209-210 | a page shows at most 10 rows; they are the entries from (page−1)·10 on, as many as remain |
| `ShipmentList.RowOnItsPage` | dashboard.js:207-210 | every entry is shown on page i/10+1, which is an existing page |
| `ShipmentList.ShowingFrom` | dashboard.js:246 | the label's first number is 0 for an empty list, else at least 1 and one more than a multiple of 10 (1, 11, 21, …) |
| `ShipmentList.ShowingTo` | dashboard.js:238 | the label's last number is the page's end (start + 10) or the list length, whichever is smaller |
| `ShipmentList.ShowingNamesPageEnds` | dashboard.js:238-246 | on an existing page, the label's first and last numbers are the 1-based positions of the page's first and last rows in the filtered list |
| `ShipmentList.ShowingCountsRows` | dashboard.js:238 | on an existing page the "Showing a–b" label counts exactly the rows shown |
| `ShipmentList.PrevPage` | dashboard.js:254-259 | Previous goes back exactly one page from any page after the first, and stays put on page 1 |
| `ShipmentList.NextPage` | dashboard.js:261-266 | Next goes forward exactly one page before the last, and stays put on or after it |
| `ShipmentList.NextPressesReach` | dashboard.js:261-266 | from a page in range, k presses of Next reach page min(page + k, max(1, page count)) |
| `ShipmentList.PageMovesStayInRange` | dashboard.js:254-266 | Previous and Next keep the page within 1..max(1, ceil(total/10)) |
| `ShipmentList.PageInRangeShowsRows` | dashboard.js:214-215 | a page in range shows rows iff the filtered list is non-empty |
| `ShipmentList.ListState.constructor` | dashboard.js:169-176 | the page state starts on page 1 with both filters empty |
| `ShipmentList.ListState.ApplyFilters` | dashboard.js:192-196 | applying filters stores both values and resets the page to 1 |
| `ShipmentList.ListState.Prev` | dashboard.js:254-259 | the Previous button moves the page as `PrevPage`, filters unchanged |
| `ShipmentList.ListState.Next` | dashboard.js:261-266 | the Next button moves the page as `NextPage`, filters unchanged |
| `ShipmentList.ListState.Render` | dashboard.js:183-210 | the rendered rows are at most 10 matching shipments of the list, the current page of the filtered list, with its count and page count |
| `Status.CountStatus` | dashboard.js:93-95 | a status count never exceeds the number of shipments |
| `Status.DashboardStats` | dashboard.js:92-95 | the total card is the number of shipments; the other three cards are the number of shipments whose status is "In Transit", "Delivered" and "Exception" respectively (the length of the list filtered on that status); each is at most the total, and an empty list shows all zeros |
| `Status.CountIsFilterLength` | dashboard.js:93-95 | a status count equals the length of the list filtered on that status alone |
| `Status.StatusCardsWithinTotal` | dashboard.js:92-95 | the in-transit, delivered and exception cards add up to at most the total card |
| `Status.PendingShipmentCounts` | dashboard.js:616 | a new Pending shipment adds one to the total and leaves the three status cards unchanged |
| `Status.ToLower` | dashboard.js:764 | lower-casing keeps the length, leaves no capital letter, keeps every other character, and maps each capital to its small letter |
| `Status.StatusClass` | dashboard.js:763-771 | the class is one of delivered/transit/pending/warning/"", and non-empty iff the lower-cased status is a known one |
| `Status.StatusClassIgnoresCase` | dashboard.js:764 | a status and its lower-cased form get the same class |
| `Status.StatusClassOfPageStatuses` | dashboard.js:765-768 | "Delivered", "In Transit", "Pending", "Exception" get delivered, transit, pending, warning |
| `Settings.CheckPassword` | dashboard.js:547-549 | a password is accepted iff both fields are equal and at least 6 characters; an empty field is reported first, then a mismatch, then shortness |
| `Settings.SplitOnSpace` | dashboard.js:499 | a split has at least one piece and no piece contains a space |
| `Settings.JoinSplit` | dashboard.js:499-501 | joining the pieces of a split with spaces gives back the string |
| `Settings.FirstName` | dashboard.js:499-500 | the first-name field contains no space |
| `Settings.SplitCount` | dashboard.js:499 | a name splits into a single piece exactly when it contains no space |
| `Settings.LastName` | dashboard.js:499-501 | the last-name field is empty for a name without a space; otherwise first field + " " + last field is the name |
| `Settings.FieldsOfOneWord` | dashboard.js:499-501 | for a name without a space, the first field is the name and the last field is empty |
| `Settings.SkipSpace` | dashboard.js:512 | the front scan of `trim` stops at the first non-whitespace character of the range (or its end), having passed only whitespace |
| `Settings.SkipSpaceBack` | dashboard.js:512 | the back scan of `trim` stops just after the last non-whitespace character (or at 0), having passed only whitespace |
| `Settings.Trim` | dashboard.js:512 | the result is the string with only whitespace cut from its two ends (a contiguous piece of it), it has no whitespace at either end, and a string with none there is unchanged |
| `Settings.TrimUnique` | dashboard.js:512 | any piece of the string obtained by cutting only whitespace from its ends and with no whitespace left at either end is the result of `trim`, so `trim` is determined by its contract |
| `Settings.TrimPadded` | dashboard.js:512 | a trailing space disappears when trimmed |
| `Settings.ComposedName` | dashboard.js:512 | the auto-saved name has no whitespace at either end, a one-word first name with an empty last name is stored as it is, and fields without outer whitespace are stored as first + " " + last |
| `Settings.NameRoundTrip` | dashboard.js:499-512 | auto-saving the name fields as they were filled stores the stored name trimmed |
| `Settings.TrimmedNameRoundTrip` | dashboard.js:499-512 | a name without surrounding whitespace survives the split and re-join unchanged |

## Left out

- The following are view plumbing with no statable logic:
  - DOM rendering, `innerHTML` templates and Chart.js;
  - the recent-shipments table and the PDF export;
  - the sidebar, logout and the login redirect;
  - the customers, analytics and KYC pages;
  - the avatar upload (FileReader) and the save indicator.
- Persistence through `localStorage` and JSON is not modelled. Every path saves the whole record right after it changes. The state after each `Profile` method is what gets saved.
- `ProfileStore.Profile.GatewayCheckoutHandler`: the source also saves the intermediate record between the credit and the debit. The model does not expose that intermediate state.
- Currency formatting (`Intl.NumberFormat`) and the gateway's `(amount / 100).toFixed(2)` display are left out: locale and float formatting.
- Floating point is left out: amounts are exact reals.
  - `parseFloat`'s parsing is not modelled. Its result is an `Option<real>`.
  - An input of "Infinity" passes the amount check in the browser; the model cannot represent it.
  - The rounding of `amount * 100` is not modelled.
- `Date.now()`, `new Date().toISOString()` and `Math.random()` are parameters.
  - A handler that reads the clock several times is given one instant.
  - The receipt's random fragments are taken as given strings.
- The two-second timer is the explicit `TimerFires` step; there is no concurrency.
  - `Gateway.MockGateway.TimerFires`: in the browser the timer event exists only once armed. An unarmed `TimerFires` is a no-op here.
- The gateway's payment-method list is not modelled. It is presentational, and the source attaches no click handler to it.
- `spendingLimit` is stored and carried unchanged; no path checks it, and neither does the model.
- `ProfileStore.Profile.TopUpHandler` and `ProfileStore.Profile.GatewayCheckoutHandler` are the bodies of the two handler closures. Called on their own, they accept any amount or form, any number of times. The binding to the gateway's captured amount or form, and the at-most-once call, come from `TopUpTimerFires` and `CheckoutTimerFires`, which are the only callers in the model's flows.
- `ProfileStore.Profile.TopUpHandler` requires a positive amount. The source builds that handler only after the amount check at dashboard.js:417 has passed.
- `ProfileStore.Profile.CreateShipment` requires a balance of at least the price. Both call sites in the source guarantee it: the wallet route checks it at dashboard.js:641, and the gateway handler credits the price at dashboard.js:658 before its call at dashboard.js:671.
- `ShipmentList.PageRows` requires page ≥ 1. The page starts at 1 and Previous never goes below it, so a negative `slice` start never arises.
- `ShipmentList.ListState.Next` takes the page count from the last render, as the source's closure does. The model does not connect it to the data shown.
- `Status.ToLower` lower-cases ASCII letters only. JavaScript's `toLowerCase` covers all of Unicode.
- `Settings.CheckPassword` counts Unicode scalar values. JavaScript's `length` counts UTF-16 code units, which differ for characters outside the Basic Multilingual Plane.
- Storing the accepted password and the other settings fields (dashboard.js:515-518, 551) is a plain field write and is not modelled.

=== FILE: gateway.dfy ===
/**
 * The mock payment gateway opened by `openMockGateway`: a modal whose Pay
 * button disables itself and arms a two-second timer; when the timer
 * fires, the gateway builds a receipt, calls the caller's handler once and
 * removes the modal. The close control and a click on the backdrop remove
 * the modal, but do not cancel an armed timer.
 *
 * `Step` and `Replay` give the state machine as values; the class
 * `MockGateway` is one opened gateway, whose methods are the user's and
 * the timer's events, and which keeps its event history to tie its fields
 * to `Replay`.
 */
module Gateway {
  import opened Records

  /** The response handed to the handler: payment, order and signature identifiers. */
  datatype Receipt = Receipt(paymentId: string, orderId: string, signature: string)

  /**
   * The receipt built from three random fragments
   * (`Math.random().toString(36).substr(2, 9)` each).
   */
  function MakeReceipt(p: string, o: string, s: string): (r: Receipt)
    ensures r.paymentId != "" && r.orderId != "" && r.signature != ""
    ensures r.paymentId != r.orderId && r.orderId != r.signature && r.paymentId != r.signature
  {
    var r := Receipt("pay_" + p, "order_" + o, "sig_" + s);
    assert r.paymentId[0] == 'p' && r.orderId[0] == 'o' && r.signature[0] == 's';
    r
  }

  /**
   * What the page shows of one opened gateway: whether the modal is in the
   * document, whether Pay is disabled, whether the timer is armed, whether
   * the caller passed a handler, and how often the handler has run.
   */
  datatype GatewayState = GatewayState(
    attached: bool,
    payDisabled: bool,
    timerArmed: bool,
    hasHandler: bool,
    handlerCalls: nat)

  /** Right after `openMockGateway`: modal shown, Pay enabled, nothing armed. */
  function Opened(hasHandler: bool): (s: GatewayState)
    ensures s.attached && Idle(s) && Guarded(s) && s.hasHandler == hasHandler
  {
    GatewayState(true, false, false, hasHandler, 0)
  }

  datatype Event =
    | PayPressed
    | ClosePressed
    | OverlayPressed(onBackdrop: bool)   // a click on the overlay; `onBackdrop` when its target is the backdrop itself
    | TimerElapsed

  /** A dismissal: the close control, or a click on the backdrop. */
  predicate Dismisses(e: Event)
  {
    e == ClosePressed || e == OverlayPressed(true)
  }

  /**
   * One event. Nothing re-attaches the modal or re-enables Pay, the handler
   * count grows by at most one, and `Guarded` is kept. An armed timer's
   * elapse removes the modal and disarms; an unarmed one changes nothing.
   */
  function Step(s: GatewayState, e: Event): (r: GatewayState)
    ensures r.attached ==> s.attached
    ensures s.payDisabled ==> r.payDisabled
    ensures s.handlerCalls <= r.handlerCalls <= s.handlerCalls + 1
    ensures r.hasHandler == s.hasHandler
    ensures Guarded(s) ==> Guarded(r)
    ensures e == TimerElapsed && s.timerArmed ==> !r.attached && !r.timerArmed
    ensures e == TimerElapsed && !s.timerArmed ==> r == s
  {
    match e
    case PayPressed =>
      // a disabled or detached button receives no click
      if s.attached && !s.payDisabled then s.(payDisabled := true, timerArmed := true) else s
    case ClosePressed =>
      s.(attached := false)
    case OverlayPressed(onBackdrop) =>
      if onBackdrop then s.(attached := false) else s
    case TimerElapsed =>
      if s.timerArmed then
        s.(timerArmed := false, attached := false,
           handlerCalls := if s.hasHandler then s.handlerCalls + 1 else s.handlerCalls)
      else s
  }

  /** The state after a history of events, the last event applied last. */
  function Replay(s: GatewayState, evs: seq<Event>): (r: GatewayState)
    ensures r.attached ==> s.attached
    ensures s.payDisabled ==> r.payDisabled
    ensures s.handlerCalls <= r.handlerCalls <= s.handlerCalls + |evs|
    ensures r.hasHandler == s.hasHandler
    ensures Guarded(s) ==> Guarded(r)
    decreases |evs|
  {
    if evs == [] then s else Step(Replay(s, evs[..|evs| - 1]), evs[|evs| - 1])
  }

  lemma ReplaySnoc(s: GatewayState, evs: seq<Event>, e: Event)
    ensures Replay(s, evs + [e]) == Step(Replay(s, evs), e)
  {
    assert (evs + [e])[..|evs|] == evs;
  }

  lemma {:induction false} ReplayAppend(s: GatewayState, a: seq<Event>, b: seq<Event>)
    ensures Replay(s, a + b) == Replay(Replay(s, a), b)
    decreases |b|
  {
    if b == [] {
      assert a + b == a;
    } else {
      var b' := b[..|b| - 1];
      assert a + b == (a + b') + [b[|b| - 1]];
      assert b == b' + [b[|b| - 1]];
      ReplaySnoc(s, a + b', b[|b| - 1]);
      ReplaySnoc(Replay(s, a), b', b[|b| - 1]);
      ReplayAppend(s, a, b');
    }
  }

  // ----- the handler runs at most once -----

  /** What every reachable state satisfies: an armed timer or a handler call needs Pay to have been disabled, and one excludes the other. */
  predicate Guarded(s: GatewayState)
  {
    && s.handlerCalls <= 1
    && (!s.payDisabled ==> !s.timerArmed && s.handlerCalls == 0)
    && (s.timerArmed ==> s.handlerCalls == 0)
  }

  lemma {:induction false} HandlerAtMostOnce(hasHandler: bool, evs: seq<Event>)
    ensures Guarded(Replay(Opened(hasHandler), evs))
    ensures Replay(Opened(hasHandler), evs).handlerCalls <= 1
    decreases |evs|
  {
    if evs != [] {
      HandlerAtMostOnce(hasHandler, evs[..|evs| - 1]);
    }
  }

  // ----- and only after Pay -----

  lemma {:induction false} HandlerOnlyAfterPay(hasHandler: bool, evs: seq<Event>)
    ensures Replay(Opened(hasHandler), evs).timerArmed ==> PayPressed in evs
    ensures Replay(Opened(hasHandler), evs).handlerCalls > 0 ==>
              exists i, j :: 0 <= i < j < |evs| && evs[i] == PayPressed && evs[j] == TimerElapsed
    decreases |evs|
  {
    if evs != [] {
      var n := |evs| - 1;
      var pre := evs[..n];
      assert evs == pre + [evs[n]];
      HandlerOnlyAfterPay(hasHandler, pre);
      var before := Replay(Opened(hasHandler), pre);
      var after := Replay(Opened(hasHandler), evs);
      if after.timerArmed && !before.timerArmed {
        assert evs[n] == PayPressed;
      }
      if after.handlerCalls > 0 {
        if before.handlerCalls > 0 {
          var i, j :| 0 <= i < j < |pre| && pre[i] == PayPressed && pre[j] == TimerElapsed;
          assert evs[i] == PayPressed && evs[j] == TimerElapsed;
        } else {
          assert evs[n] == TimerElapsed && before.timerArmed;
          var i :| 0 <= i < |pre| && pre[i] == PayPressed;
          assert evs[i] == PayPressed && evs[n] == TimerElapsed;
        }
      }
    }
  }

  // ----- a dismissal before Pay cancels for good -----

  /** Pay has not taken effect: nothing armed, nothing called. */
  predicate Idle(s: GatewayState)
  {
    !s.payDisabled && !s.timerArmed && s.handlerCalls == 0
  }

  /** Modal gone with nothing armed and nothing called: no event changes that. */
  predicate Cancelled(s: GatewayState)
  {
    !s.attached && !s.timerArmed && s.handlerCalls == 0
  }

  lemma {:induction false} IdleUntilPay(s: GatewayState, evs: seq<Event>)
    requires Idle(s) && PayPressed !in evs
    ensures Idle(Replay(s, evs))
    decreases |evs|
  {
    if evs != [] {
      assert evs == evs[..|evs| - 1] + [evs[|evs| - 1]];
      IdleUntilPay(s, evs[..|evs| - 1]);
    }
  }

  lemma {:induction false} CancelledStaysCancelled(s: GatewayState, evs: seq<Event>)
    requires Cancelled(s)
    ensures Cancelled(Replay(s, evs))
    decreases |evs|
  {
    if evs != [] {
      CancelledStaysCancelled(s, evs[..|evs| - 1]);
    }
  }

  /** A dismissal with no Pay before it means the handler is never called, whatever follows. */
  lemma DismissBeforePayCancels(hasHandler: bool, evs: seq<Event>, k: nat)
    requires k < |evs| && Dismisses(evs[k]) && PayPressed !in evs[..k]
    ensures Cancelled(Replay(Opened(hasHandler), evs))
    ensures Replay(Opened(hasHandler), evs).handlerCalls == 0
  {
    var s := Opened(hasHandler);
    IdleUntilPay(s, evs[..k]);
    assert evs[..k + 1] == evs[..k] + [evs[k]];
    ReplaySnoc(s, evs[..k], evs[k]);
    assert Cancelled(Replay(s, evs[..k + 1]));
    CancelledStaysCancelled(Replay(s, evs[..k + 1]), evs[k + 1..]);
    assert evs == evs[..k + 1] + evs[k + 1..];
    ReplayAppend(s, evs[..k + 1], evs[k + 1..]);
  }

  // ----- once Pay is pressed, a dismissal does not stop the handler -----

  /** The timer is armed and the handler not yet called. */
  predicate Processing(s: GatewayState)
  {
    s.payDisabled && s.timerArmed && s.handlerCalls == 0
  }

  lemma {:induction false} ProcessingUntilTimer(s: GatewayState, evs: seq<Event>)
    requires Processing(s) && TimerElapsed !in evs
    ensures Processing(Replay(s, evs)) && Replay(s, evs).hasHandler == s.hasHandler
    decreases |evs|
  {
    if evs != [] {
      assert evs == evs[..|evs| - 1] + [evs[|evs| - 1]];
      ProcessingUntilTimer(s, evs[..|evs| - 1]);
    }
  }

  /** The modal is still shown and Pay still enabled. */
  predicate Waiting(s: GatewayState)
  {
    s.attached && Idle(s)
  }

  lemma {:induction false} WaitingUntilPayOrDismissal(s: GatewayState, evs: seq<Event>)
    requires Waiting(s) && PayPressed !in evs
    requires forall i :: 0 <= i < |evs| ==> !Dismisses(evs[i])
    ensures Waiting(Replay(s, evs)) && Replay(s, evs).hasHandler == s.hasHandler
    decreases |evs|
  {
    if evs != [] {
      assert evs == evs[..|evs| - 1] + [evs[|evs| - 1]];
      WaitingUntilPayOrDismissal(s, evs[..|evs| - 1]);
    }
  }

  /**
   * Pay pressed while the modal is up (no dismissal before it), then any
   * events without the timer, closes included, then the timer: the handler
   * has run exactly once.
   */
  lemma PayThenTimerCallsHandler(pre: seq<Event>, mid: seq<Event>)
    requires PayPressed !in pre && forall i :: 0 <= i < |pre| ==> !Dismisses(pre[i])
    requires TimerElapsed !in mid
    ensures Replay(Opened(true), pre + [PayPressed] + mid + [TimerElapsed]).handlerCalls == 1
  {
    var s := Opened(true);
    WaitingUntilPayOrDismissal(s, pre);
    ReplaySnoc(s, pre, PayPressed);
    var armed := Replay(s, pre + [PayPressed]);
    ProcessingUntilTimer(armed, mid);
    ReplayAppend(s, pre + [PayPressed], mid);
    ReplaySnoc(s, pre + [PayPressed] + mid, TimerElapsed);
  }

  // ----- one opened gateway -----

  /**
   * One opened gateway. `P` is what the caller's handler closure captured
   * (the amount of a top-up, the form of a checkout): the caller applies
   * its handler to `captured` and the receipt `TimerFires` hands over.
   */
  class MockGateway<P> {
    /** `options.amount`, in paise; only displayed. */
    const amount: real
    const hasHandler: bool
    const captured: P
    var attached: bool
    var payDisabled: bool
    var timerArmed: bool
    var handlerCalls: nat
    ghost var history: seq<Event>

    function State(): GatewayState
      reads this
    {
      GatewayState(attached, payDisabled, timerArmed, hasHandler, handlerCalls)
    }

    ghost predicate Valid()
      reads this
    {
      State() == Replay(Opened(hasHandler), history)
    }

    /** `openMockGateway(options)`: the modal is appended with Pay enabled. */
    constructor Open(amount: real, hasHandler: bool, captured: P)
      ensures Valid() && history == []
      ensures this.amount == amount && this.hasHandler == hasHandler && this.captured == captured
      ensures State() == Opened(hasHandler)
    {
      this.amount := amount;
      this.hasHandler := hasHandler;
      this.captured := captured;
      attached, payDisabled, timerArmed, handlerCalls := true, false, false, 0;
      history := [];
    }

    /** A click on Pay: if the button is shown and enabled, disable it and arm the timer. */
    method Pay()
      requires Valid()
      modifies this
      ensures Valid() && history == old(history) + [PayPressed]
      ensures State() == Step(old(State()), PayPressed)
      ensures old(attached && !payDisabled) ==> payDisabled && timerArmed
      ensures handlerCalls <= 1
    {
      if attached && !payDisabled {
        payDisabled := true;
        timerArmed := true;
      }
      ReplaySnoc(Opened(hasHandler), history, PayPressed);
      history := history + [PayPressed];
      HandlerAtMostOnce(hasHandler, history);
    }

    /** A click on the close control: the modal is removed; an armed timer stays armed. */
    method Close()
      requires Valid()
      modifies this
      ensures Valid() && history == old(history) + [ClosePressed]
      ensures State() == Step(old(State()), ClosePressed)
      ensures !attached && timerArmed == old(timerArmed) && handlerCalls == old(handlerCalls)
    {
      attached := false;
      ReplaySnoc(Opened(hasHandler), history, ClosePressed);
      history := history + [ClosePressed];
    }

    /** A click on the overlay: it closes the modal only when its target is the backdrop. */
    method ClickOverlay(onBackdrop: bool)
      requires Valid()
      modifies this
      ensures Valid() && history == old(history) + [OverlayPressed(onBackdrop)]
      ensures State() == Step(old(State()), OverlayPressed(onBackdrop))
    {
      if onBackdrop {
        attached := false;
      }
      ReplaySnoc(Opened(hasHandler), history, OverlayPressed(onBackdrop));
      history := history + [OverlayPressed(onBackdrop)];
    }

    /**
     * The armed timer fires: build the receipt, call the handler with it
     * (returned here as the receipt), remove the modal. `p`, `o`, `s` are
     * the random fragments of the three identifiers.
     */
    method TimerFires(p: string, o: string, s: string) returns (receipt: Option<Receipt>)
      requires Valid()
      modifies this
      ensures Valid() && history == old(history) + [TimerElapsed]
      ensures State() == Step(old(State()), TimerElapsed)
      ensures receipt.Some? <==> old(timerArmed) && hasHandler
      ensures receipt.Some? ==> receipt.value == MakeReceipt(p, o, s)
      ensures receipt.Some? ==> old(handlerCalls) == 0 && handlerCalls == 1
      ensures old(handlerCalls) > 0 ==> receipt.None?
      ensures handlerCalls <= 1
      ensures old(timerArmed) ==> !attached && !timerArmed
    {
      HandlerAtMostOnce(hasHandler, history);
      receipt := None;
      if timerArmed {
        var response := MakeReceipt(p, o, s);
        if hasHandler {
          handlerCalls := handlerCalls + 1;
          receipt := Some(response);
        }
        timerArmed := false;
        attached := false;
      }
      ReplaySnoc(Opened(hasHandler), history, TimerElapsed);
      history := history + [TimerElapsed];
      HandlerAtMostOnce(hasHandler, history);
    }
  }
}

=== FILE: ledger.dfy ===
/**
 * The wallet ledger as values: the stored profile record and the four
 * paths that change it (top-up handler, withdrawal, direct checkout and
 * gateway-funded checkout). Each path adds signed amounts to the balance
 * and prepends the matching transactions to the newest-first log: one for
 * a top-up, a withdrawal or a wallet checkout, two (a credit, then the
 * shipment's debit) for a gateway-funded checkout.
 * The class `ProfileStore.Profile` performs the same paths in place and is
 * specified by these functions.
 */
module Ledger {
  import opened Records

  /** The part of the stored profile the wallet paths read and write. */
  datatype ProfileData = ProfileData(
    balance: real,
    spendingLimit: int,
    transactions: seq<Transaction>,
    shipments: seq<Shipment>)

  /** The seeded profile: balance 0, limit 200000 (stored, never checked), empty logs. */
  const Seed: ProfileData := ProfileData(0.0, 200000, [], [])

  /** Sum of the signed amounts of a transaction log. */
  function Total(txs: seq<Transaction>): real
  {
    if txs == [] then 0.0 else txs[0].amount + Total(txs[1..])
  }

  /** The balance equals the sum of the logged amounts. */
  predicate Balanced(d: ProfileData)
  {
    d.balance == Total(d.transactions)
  }

  /** The ledger invariant: balanced and never negative. */
  predicate Consistent(d: ProfileData)
  {
    Balanced(d) && d.balance >= 0.0
  }

  /** `after` is `before` with exactly one new newest entry of the given amount, type and status. */
  predicate PrependsOne(before: seq<Transaction>, after: seq<Transaction>, amount: real, kind: TxType, status: TxStatus)
  {
    |after| == |before| + 1 && after[1..] == before
    && after[0].amount == amount && after[0].kind == kind && after[0].status == status
  }

  /** `after` is `before` with new entries put in front: every older entry is kept, in order, at the end. */
  predicate KeepsOlder<T(==)>(before: seq<T>, after: seq<T>)
  {
    |before| <= |after| && after[|after| - |before|..] == before
  }

  lemma KeepsOlderTransitive<T>(a: seq<T>, b: seq<T>, c: seq<T>)
    requires KeepsOlder(a, b) && KeepsOlder(b, c)
    ensures KeepsOlder(a, c)
  {
    assert c[|c| - |a|..] == c[|c| - |b|..][|b| - |a|..];
  }

  /** `balance += tx.amount; transactions.unshift(tx)`, the step every path is built from. */
  function Post(d: ProfileData, tx: Transaction): (r: ProfileData)
    ensures Balanced(d) ==> Balanced(r)
    ensures r.balance == d.balance + tx.amount
    ensures r.transactions == [tx] + d.transactions
    ensures r.shipments == d.shipments && r.spendingLimit == d.spendingLimit
  {
    assert ([tx] + d.transactions)[1..] == d.transactions;
    d.(balance := d.balance + tx.amount, transactions := [tx] + d.transactions)
  }

  // ----- amounts typed into a prompt -----

  /**
   * The check both wallet prompts apply to `parseFloat(input)`:
   * `!amount || amount <= 0` rejects NaN, zero and negatives.
   */
  function EnteredAmount(parsed: Option<real>): (r: Option<real>)
    ensures r.Some? <==> parsed.Some? && parsed.value > 0.0
    ensures r.Some? ==> r == parsed
  {
    if parsed.None? || parsed.value == 0.0 then None
    else if parsed.value <= 0.0 then None
    else parsed
  }

  // ----- top-up (gateway handler) -----

  /** `response.razorpay_payment_id || "#PAY-" + Date.now()`. */
  function PaymentTxId(receiptPaymentId: string, nowMillis: nat): (id: string)
    ensures receiptPaymentId != "" ==> id == receiptPaymentId
    ensures receiptPaymentId == "" ==> "#PAY-" <= id
  {
    if receiptPaymentId != "" then receiptPaymentId else "#PAY-" + NatToString(nowMillis)
  }

  function TopUpCredit(amount: real, receiptPaymentId: string, nowMillis: nat, isoNow: string): Transaction
  {
    Transaction(PaymentTxId(receiptPaymentId, nowMillis), isoNow, "Wallet Recharge",
                "Razorpay (Card/UPI)", amount, Credit, Success)
  }

  /** What the top-up handler does once the gateway calls it. */
  function CreditTopUp(d: ProfileData, amount: real, receiptPaymentId: string, nowMillis: nat, isoNow: string): (r: ProfileData)
    ensures r.balance == d.balance + amount
    ensures PrependsOne(d.transactions, r.transactions, amount, Credit, Success)
    ensures r.shipments == d.shipments && r.spendingLimit == d.spendingLimit
    ensures Balanced(d) ==> Balanced(r)
  {
    Post(d, TopUpCredit(amount, receiptPaymentId, nowMillis, isoNow))
  }

  // ----- withdrawal -----

  datatype WithdrawOutcome = InvalidAmount | InsufficientBalance | NotConfirmed | Withdrawn

  datatype WithdrawResult = WithdrawResult(outcome: WithdrawOutcome, data: ProfileData)

  function WithdrawalDebit(amount: real, nowMillis: nat, isoNow: string): Transaction
  {
    Transaction("#WD-" + NatToString(nowMillis), isoNow, "Withdrawal to Bank",
                "Bank Transfer", -amount, Debit, Processed)
  }

  /**
   * The withdraw button: the amount check, then the balance check, then
   * the user's confirmation (asked only when both checks pass).
   */
  function Withdraw(d: ProfileData, entered: Option<real>, confirmed: bool, nowMillis: nat, isoNow: string): (r: WithdrawResult)
    ensures r.outcome == InvalidAmount <==> !(entered.Some? && entered.value > 0.0)
    ensures r.outcome == InsufficientBalance <==> entered.Some? && entered.value > 0.0 && entered.value > d.balance
    ensures r.outcome == Withdrawn <==> entered.Some? && 0.0 < entered.value <= d.balance && confirmed
    ensures r.outcome != Withdrawn ==> r.data == d
    ensures r.outcome == Withdrawn ==>
              && r.data.balance == d.balance - entered.value
              && PrependsOne(d.transactions, r.data.transactions, -entered.value, Debit, Processed)
              && r.data.shipments == d.shipments && r.data.spendingLimit == d.spendingLimit
    ensures Consistent(d) ==> Consistent(r.data)
  {
    var amount := EnteredAmount(entered);
    if amount.None? then WithdrawResult(InvalidAmount, d)
    else if amount.value > d.balance then WithdrawResult(InsufficientBalance, d)
    else if !confirmed then WithdrawResult(NotConfirmed, d)
    else WithdrawResult(Withdrawn, Post(d, WithdrawalDebit(amount.value, nowMillis, isoNow)))
  }

  // ----- shipment checkout -----

  /** JavaScript's `Math.round`: the nearest integer, halves rounded up. */
  function Round(x: real): (n: int)
    ensures x - 0.5 < n as real <= x + 0.5
  {
    (x + 0.5).Floor
  }

  /** `parseFloat(weight) || 0.5`: NaN and zero fall back to half a kilogram. */
  function Weight(field: Option<real>): (w: real)
    ensures field.Some? && field.value != 0.0 ==> w == field.value
    ensures field.None? || field.value == 0.0 ==> w == 0.5
  {
    if field.None? || field.value == 0.0 then 0.5 else field.value
  }

  /** The shipment price: Express 350 + 100 per kg, anything else 150 + 50 per kg, rounded. */
  function ShipmentPrice(form: ShipmentForm): (price: int)
    ensures var exact := if form.service == "Express" then 350.0 + Weight(form.weight) * 100.0
                         else 150.0 + Weight(form.weight) * 50.0;
            exact - 0.5 < price as real <= exact + 0.5
  {
    var w := Weight(form.weight);
    if form.service == "Express" then Round(350.0 + w * 100.0) else Round(150.0 + w * 50.0)
  }

  /** `Math.floor(1000 + Math.random() * 90000)`, the tracking number. */
  function TrackingNumber(draw: real): (n: int)
    ensures 0.0 <= draw < 1.0 ==> 1000 <= n <= 90999
  {
    (1000.0 + draw * 90000.0).Floor
  }

  /** `Math.floor(1000 + Math.random() * 9000)`, the shipment transaction number. */
  function TxnNumber(draw: real): (n: int)
    ensures 0.0 <= draw < 1.0 ==> 1000 <= n <= 9999
  {
    (1000.0 + draw * 9000.0).Floor
  }

  /** The shipment record `createShipment` builds. */
  function NewShipment(form: ShipmentForm, trackingDraw: real, isoNow: string, price: int): Shipment
  {
    Shipment("#TRK-" + IntToString(TrackingNumber(trackingDraw)), form.senderName, form.senderCity,
             form.receiverCity + ", " + form.receiverPin, isoNow, "Pending", price)
  }

  function ShipmentDebit(s: Shipment, txnDraw: real, isoNow: string): Transaction
  {
    Transaction("#TXN-" + IntToString(TxnNumber(txnDraw)), isoNow, "Shipment " + s.id,
                "Wallet Balance", -(s.amount as real), Debit, Completed)
  }

  /** The `createShipment` closure: unshift the shipment, then debit its price. */
  function CreateShipment(d: ProfileData, s: Shipment, txnDraw: real, isoNow: string): (r: ProfileData)
    ensures r.shipments == [s] + d.shipments
    ensures r.balance == d.balance - s.amount as real
    ensures PrependsOne(d.transactions, r.transactions, -(s.amount as real), Debit, Completed)
    ensures r.transactions[0].desc == "Shipment " + s.id
    ensures r.spendingLimit == d.spendingLimit
    ensures Balanced(d) ==> Balanced(r)
  {
    Post(d.(shipments := [s] + d.shipments), ShipmentDebit(s, txnDraw, isoNow))
  }

  datatype CheckoutRoute = FromWallet | ViaGateway | Abandoned

  /** Checkout pays from the wallet when it holds the price; otherwise it asks to pay through the gateway. */
  function Route(balance: real, price: int, confirmed: bool): (route: CheckoutRoute)
    ensures route == FromWallet <==> balance >= price as real
    ensures route == ViaGateway <==> balance < price as real && confirmed
    ensures route == Abandoned <==> balance < price as real && !confirmed
  {
    if balance >= price as real then FromWallet else if confirmed then ViaGateway else Abandoned
  }

  /** Checkout when `balance >= price`. */
  function DirectCheckout(d: ProfileData, form: ShipmentForm, isoNow: string, trackingDraw: real, txnDraw: real): (r: ProfileData)
    ensures |r.shipments| == |d.shipments| + 1 && r.shipments[1..] == d.shipments
    ensures r.shipments[0].amount == ShipmentPrice(form) && r.shipments[0].status == "Pending"
    ensures r.shipments[0].customer == form.senderName && r.shipments[0].origin == form.senderCity
    ensures r.balance == d.balance - ShipmentPrice(form) as real
    ensures PrependsOne(d.transactions, r.transactions, -(ShipmentPrice(form) as real), Debit, Completed)
    ensures r.spendingLimit == d.spendingLimit
    ensures Balanced(d) ==> Balanced(r)
  {
    CreateShipment(d, NewShipment(form, trackingDraw, isoNow, ShipmentPrice(form)), txnDraw, isoNow)
  }

  function AutoRechargeCredit(price: int, receiptPaymentId: string, nowMillis: nat, isoNow: string): Transaction
  {
    Transaction(PaymentTxId(receiptPaymentId, nowMillis), isoNow, "Auto-Recharge for Shipment",
                "Razorpay", price as real, Credit, Success)
  }

  /** The gateway handler of a checkout: credit the price, then `createShipment`, which debits it again. */
  function GatewayCheckout(d: ProfileData, form: ShipmentForm, receiptPaymentId: string, nowMillis: nat, isoNow: string,
                           trackingDraw: real, txnDraw: real): (r: ProfileData)
    ensures r.balance == d.balance
    ensures |r.transactions| == |d.transactions| + 2 && r.transactions[2..] == d.transactions
    ensures r.transactions[0].kind == Debit && r.transactions[0].amount == -(ShipmentPrice(form) as real)
    ensures r.transactions[0].status == Completed
    ensures r.transactions[1].kind == Credit && r.transactions[1].amount == ShipmentPrice(form) as real
    ensures r.transactions[1].status == Success
    ensures |r.shipments| == |d.shipments| + 1 && r.shipments[1..] == d.shipments
    ensures r.shipments[0].amount == ShipmentPrice(form) && r.shipments[0].status == "Pending"
    ensures r.spendingLimit == d.spendingLimit
    ensures Balanced(d) ==> Balanced(r)
  {
    var price := ShipmentPrice(form);
    var credited := Post(d, AutoRechargeCredit(price, receiptPaymentId, nowMillis, isoNow));
    var r := CreateShipment(credited, NewShipment(form, trackingDraw, isoNow, price), txnDraw, isoNow);
    assert r.transactions[2..] == credited.transactions[1..];
    r
  }

  // ----- the invariant over every sequence of user actions -----

  /**
   * One user action on the wallet. `paid` says whether the gateway opened
   * for the action called its handler; the `Gateway` module proves that it
   * does so at most once per opening, and only after Pay.
   */
  datatype Action =
    | TopUp(entered: Option<real>, paid: bool, receiptPaymentId: string, nowMillis: nat, isoNow: string)
    | Withdrawal(entered: Option<real>, confirmed: bool, nowMillis: nat, isoNow: string)
    | Checkout(form: ShipmentForm, confirmed: bool, paid: bool, receiptPaymentId: string, nowMillis: nat,
               isoNow: string, trackingDraw: real, txnDraw: real)

  /** One action: the log and the shipment list only gain entries at the front, and the limit never changes. */
  function Step(d: ProfileData, a: Action): (r: ProfileData)
    ensures KeepsOlder(d.transactions, r.transactions) && KeepsOlder(d.shipments, r.shipments)
    ensures |r.transactions| <= |d.transactions| + 2 && |r.shipments| <= |d.shipments| + 1
    ensures r.spendingLimit == d.spendingLimit
  {
    match a
    case TopUp(entered, paid, pid, now, iso) =>
      var amount := EnteredAmount(entered);
      if amount.Some? && paid then CreditTopUp(d, amount.value, pid, now, iso) else d
    case Withdrawal(entered, confirmed, now, iso) =>
      Withdraw(d, entered, confirmed, now, iso).data
    case Checkout(form, confirmed, paid, pid, now, iso, td, xd) =>
      match Route(d.balance, ShipmentPrice(form), confirmed)
      case FromWallet => DirectCheckout(d, form, iso, td, xd)
      case ViaGateway => if paid then GatewayCheckout(d, form, pid, now, iso, td, xd) else d
      case Abandoned => d
  }

  /** Actions in order: no entry of the log or of the shipment list is ever removed or rewritten. */
  function Run(d: ProfileData, actions: seq<Action>): (r: ProfileData)
    ensures KeepsOlder(d.transactions, r.transactions) && KeepsOlder(d.shipments, r.shipments)
    ensures |r.transactions| <= |d.transactions| + 2 * |actions|
    ensures r.spendingLimit == d.spendingLimit
    decreases |actions|
  {
    if actions == [] then d
    else
      var next := Step(d, actions[0]);
      var r := Run(next, actions[1..]);
      KeepsOlderTransitive(d.transactions, next.transactions, r.transactions);
      KeepsOlderTransitive(d.shipments, next.shipments, r.shipments);
      r
  }

  /** Every single action keeps the ledger invariant and leaves the spending limit alone. */
  lemma StepKeepsConsistent(d: ProfileData, a: Action)
    requires Consistent(d)
    ensures Consistent(Step(d, a)) && Step(d, a).spendingLimit == d.spendingLimit
  {
  }

  lemma {:induction false} RunKeepsConsistent(d: ProfileData, actions: seq<Action>)
    requires Consistent(d)
    ensures Consistent(Run(d, actions)) && Run(d, actions).spendingLimit == d.spendingLimit
    decreases |actions|
  {
    if actions != [] {
      StepKeepsConsistent(d, actions[0]);
      RunKeepsConsistent(Step(d, actions[0]), actions[1..]);
    }
  }

  /** From the seed, every sequence of actions leaves balance == sum of amounts, balance >= 0, limit 200000. */
  lemma RunFromSeed(actions: seq<Action>)
    ensures Consistent(Run(Seed, actions))
    ensures Run(Seed, actions).spendingLimit == 200000
  {
    RunKeepsConsistent(Seed, actions);
  }

  // ----- transaction signs -----

  /** A credit carries a positive amount, a debit a negative one. */
  predicate WellSigned(t: Transaction)
  {
    (t.kind == Credit ==> t.amount > 0.0) && (t.kind == Debit ==> t.amount < 0.0)
  }

  predicate AllWellSigned(txs: seq<Transaction>)
  {
    forall i :: 0 <= i < |txs| ==> WellSigned(txs[i])
  }

  /** Every checkout in the action uses a non-negative weight. */
  predicate NonNegativeWeight(a: Action)
  {
    a.Checkout? ==> Weight(a.form.weight) >= 0.0
  }

  /** With a non-negative weight, a price is at least its service's base price. */
  lemma PriceAtLeastBase(form: ShipmentForm)
    requires Weight(form.weight) >= 0.0
    ensures ShipmentPrice(form) >= (if form.service == "Express" then 350 else 150)
  {
  }

  /** A heavier parcel never costs less under the same service. */
  lemma PriceMonotone(f: ShipmentForm, g: ShipmentForm)
    requires f.service == g.service && Weight(f.weight) <= Weight(g.weight)
    ensures ShipmentPrice(f) <= ShipmentPrice(g)
  {
  }

  /** An empty, unreadable or zero weight is priced as 0.5 kg: 175 standard, 400 Express. */
  lemma DefaultWeightPrice(form: ShipmentForm)
    requires form.weight.None? || form.weight.value == 0.0
    ensures ShipmentPrice(form) == (if form.service == "Express" then 400 else 175)
  {
  }

  lemma PrependKeepsSigns(t: Transaction, txs: seq<Transaction>)
    requires WellSigned(t) && AllWellSigned(txs)
    ensures AllWellSigned([t] + txs)
  {
    forall i | 0 <= i < |[t] + txs| ensures WellSigned(([t] + txs)[i]) {
      if i > 0 { assert ([t] + txs)[i] == txs[i - 1]; }
    }
  }

  lemma StepKeepsSigns(d: ProfileData, a: Action)
    requires AllWellSigned(d.transactions) && NonNegativeWeight(a)
    ensures AllWellSigned(Step(d, a).transactions)
  {
    match a
    case TopUp(entered, paid, pid, now, iso) =>
      var amount := EnteredAmount(entered);
      if amount.Some? && paid {
        PrependKeepsSigns(TopUpCredit(amount.value, pid, now, iso), d.transactions);
      }
    case Withdrawal(entered, confirmed, now, iso) =>
      var amount := EnteredAmount(entered);
      if Withdraw(d, entered, confirmed, now, iso).outcome == Withdrawn {
        PrependKeepsSigns(WithdrawalDebit(amount.value, now, iso), d.transactions);
      }
    case Checkout(form, confirmed, paid, pid, now, iso, td, xd) =>
      var price := ShipmentPrice(form);
      PriceAtLeastBase(form);
      var s := NewShipment(form, td, iso, price);
      match Route(d.balance, price, confirmed)
      case FromWallet =>
        PrependKeepsSigns(ShipmentDebit(s, xd, iso), d.transactions);
      case ViaGateway =>
        if paid {
          var credit := AutoRechargeCredit(price, pid, now, iso);
          PrependKeepsSigns(credit, d.transactions);
          PrependKeepsSigns(ShipmentDebit(s, xd, iso), [credit] + d.transactions);
        }
      case Abandoned =>
  }

  /** As long as no checkout uses a negative weight, every logged credit is positive and every debit negative. */
  lemma {:induction false} RunKeepsSigns(d: ProfileData, actions: seq<Action>)
    requires AllWellSigned(d.transactions)
    requires forall i :: 0 <= i < |actions| ==> NonNegativeWeight(actions[i])
    ensures AllWellSigned(Run(d, actions).transactions)
    decreases |actions|
  {
    if actions != [] {
      StepKeepsSigns(d, actions[0]);
      RunKeepsSigns(Step(d, actions[0]), actions[1..]);
    }
  }

  /**
   * The script itself does not reject a negative weight: a standard parcel
   * of -4 kg is priced at -50, and the wallet checkout then logs a "debit"
   * of +50 that raises the balance.
   */
  lemma NegativeWeightDebitRaisesBalance(d: ProfileData, form: ShipmentForm, isoNow: string, trackingDraw: real, txnDraw: real)
    requires d.balance >= 0.0
    requires form.weight == Some(-4.0) && form.service == "Standard"
    ensures ShipmentPrice(form) == -50
    ensures Route(d.balance, ShipmentPrice(form), false) == FromWallet
    ensures DirectCheckout(d, form, isoNow, trackingDraw, txnDraw).balance == d.balance + 50.0
    ensures !WellSigned(DirectCheckout(d, form, isoNow, trackingDraw, txnDraw).transactions[0])
  {
  }
}

=== FILE: profile.dfy ===
/**
 * The stored profile as the page holds it: one record whose wallet
 * balance, transaction log and shipment list the wallet buttons, the
 * gateway handlers and the checkout form change in place. Each method is
 * specified by the corresponding function of `Ledger`, and each keeps the
 * ledger invariant `Valid()`.
 */
module ProfileStore {
  import opened Records
  import opened Ledger
  import opened Gateway

  class Profile {
    var balance: real
    var spendingLimit: int
    var transactions: seq<Transaction>
    var shipments: seq<Shipment>

    /** The record as values. */
    function Data(): ProfileData
      reads this
    {
      ProfileData(balance, spendingLimit, transactions, shipments)
    }

    /** Balance equals the sum of the log, and is never negative. */
    ghost predicate Valid()
      reads this
    {
      Consistent(Data())
    }

    /** First run: the seeded wallet. */
    constructor ()
      ensures Data() == Seed && Valid()
    {
      balance := 0.0;
      spendingLimit := 200000;
      transactions := [];
      shipments := [];
    }

    /** The top-up gateway's handler, for an amount that passed the prompt's check. */
    method TopUpHandler(amount: real, receipt: Receipt, nowMillis: nat, isoNow: string)
      requires Valid() && amount > 0.0
      modifies this
      ensures Valid()
      ensures Data() == CreditTopUp(old(Data()), amount, receipt.paymentId, nowMillis, isoNow)
    {
      balance := balance + amount;
      transactions := [TopUpCredit(amount, receipt.paymentId, nowMillis, isoNow)] + transactions;
    }

    /** The withdraw button, with the parsed prompt input and the user's answer to the confirmation. */
    method Withdraw(entered: Option<real>, confirmed: bool, nowMillis: nat, isoNow: string) returns (outcome: WithdrawOutcome)
      requires Valid()
      modifies this
      ensures Valid()
      ensures outcome == Ledger.Withdraw(old(Data()), entered, confirmed, nowMillis, isoNow).outcome
      ensures Data() == Ledger.Withdraw(old(Data()), entered, confirmed, nowMillis, isoNow).data
    {
      var amount := EnteredAmount(entered);
      if amount.None? {
        return InvalidAmount;
      }
      if amount.value > balance {
        return InsufficientBalance;
      }
      if !confirmed {
        return NotConfirmed;
      }
      balance := balance - amount.value;
      transactions := [WithdrawalDebit(amount.value, nowMillis, isoNow)] + transactions;
      outcome := Withdrawn;
    }

    /**
     * The `createShipment` closure. Both of its call sites leave the
     * balance at least the price: the direct route checks it, the gateway
     * route has just credited the price onto a non-negative balance.
     */
    method CreateShipment(s: Shipment, txnDraw: real, isoNow: string)
      requires Balanced(Data()) && balance >= s.amount as real
      modifies this
      ensures Valid()
      ensures Data() == Ledger.CreateShipment(old(Data()), s, txnDraw, isoNow)
    {
      shipments := [s] + shipments;
      balance := balance - s.amount as real;
      transactions := [ShipmentDebit(s, txnDraw, isoNow)] + transactions;
    }

    /**
     * Submitting the create-shipment form. With enough balance the shipment
     * is created and paid from the wallet; otherwise, if the user agrees, a
     * gateway for the price in paise is opened and nothing else changes.
     */
    method SubmitShipment(form: ShipmentForm, confirmed: bool, isoNow: string, trackingDraw: real, txnDraw: real)
      returns (route: CheckoutRoute, gateway: Option<MockGateway<ShipmentForm>>)
      requires Valid()
      modifies this
      ensures Valid()
      ensures route == Route(old(balance), ShipmentPrice(form), confirmed)
      ensures route == FromWallet ==> Data() == DirectCheckout(old(Data()), form, isoNow, trackingDraw, txnDraw)
      ensures route != FromWallet ==> Data() == old(Data())
      ensures gateway.Some? <==> route == ViaGateway
      ensures gateway.Some? ==> fresh(gateway.value) && gateway.value.Valid() && gateway.value.history == []
      ensures gateway.Some? ==> gateway.value.amount == ShipmentPrice(form) as real * 100.0 && gateway.value.hasHandler
      ensures gateway.Some? ==> gateway.value.captured == form
    {
      var price := ShipmentPrice(form);
      route := Route(balance, price, confirmed);
      gateway := None;
      if route == FromWallet {
        CreateShipment(NewShipment(form, trackingDraw, isoNow, price), txnDraw, isoNow);
      } else if route == ViaGateway {
        var g := new MockGateway.Open(price as real * 100.0, true, form);
        gateway := Some(g);
      }
    }

    /**
     * The timer of a top-up gateway fires: when it was armed, the handler
     * closure credits the amount the gateway was opened for, under the
     * receipt's payment id. A gateway yields that receipt at most once.
     */
    method TopUpTimerFires(g: MockGateway<real>, p: string, o: string, s: string, nowMillis: nat, isoNow: string)
      returns (receipt: Option<Receipt>)
      requires Valid() && g.Valid() && g.hasHandler && g.captured > 0.0
      modifies this, g
      ensures Valid() && g.Valid() && g.history == old(g.history) + [TimerElapsed]
      ensures g.State() == Gateway.Step(old(g.State()), TimerElapsed)
      ensures receipt.Some? <==> old(g.timerArmed)
      ensures receipt.Some? ==> old(g.handlerCalls) == 0 && g.handlerCalls == 1
      ensures receipt.Some? ==> Data() == CreditTopUp(old(Data()), g.captured, MakeReceipt(p, o, s).paymentId, nowMillis, isoNow)
      ensures receipt.None? ==> Data() == old(Data())
    {
      receipt := g.TimerFires(p, o, s);
      if receipt.Some? {
        TopUpHandler(g.captured, receipt.value, nowMillis, isoNow);
      }
    }

    /**
     * The timer of a checkout gateway fires: when it was armed, the handler
     * closure pays for the form the gateway was opened for. A gateway
     * yields that receipt at most once.
     */
    method CheckoutTimerFires(g: MockGateway<ShipmentForm>, p: string, o: string, s: string, nowMillis: nat,
                              isoNow: string, trackingDraw: real, txnDraw: real)
      returns (receipt: Option<Receipt>)
      requires Valid() && g.Valid() && g.hasHandler
      modifies this, g
      ensures Valid() && g.Valid() && g.history == old(g.history) + [TimerElapsed]
      ensures g.State() == Gateway.Step(old(g.State()), TimerElapsed)
      ensures receipt.Some? <==> old(g.timerArmed)
      ensures receipt.Some? ==> old(g.handlerCalls) == 0 && g.handlerCalls == 1
      ensures receipt.Some? ==>
                Data() == GatewayCheckout(old(Data()), g.captured, MakeReceipt(p, o, s).paymentId, nowMillis, isoNow,
                                          trackingDraw, txnDraw)
      ensures receipt.None? ==> Data() == old(Data())
    {
      receipt := g.TimerFires(p, o, s);
      if receipt.Some? {
        GatewayCheckoutHandler(g.captured, receipt.value, nowMillis, isoNow, trackingDraw, txnDraw);
      }
    }

    /** The checkout gateway's handler: credit the price, then `createShipment`. */
    method GatewayCheckoutHandler(form: ShipmentForm, receipt: Receipt, nowMillis: nat, isoNow: string,
                                  trackingDraw: real, txnDraw: real)
      requires Valid()
      modifies this
      ensures Valid()
      ensures Data() == GatewayCheckout(old(Data()), form, receipt.paymentId, nowMillis, isoNow, trackingDraw, txnDraw)
    {
      var price := ShipmentPrice(form);
      balance := balance + price as real;
      transactions := [AutoRechargeCredit(price, receipt.paymentId, nowMillis, isoNow)] + transactions;
      CreateShipment(NewShipment(form, trackingDraw, isoNow, price), txnDraw, isoNow);
    }
  }

  /**
   * The add-money button: a valid amount opens a gateway for it in paise,
   * with a handler; anything else opens nothing.
   */
  method RequestTopUp(entered: Option<real>) returns (gateway: Option<MockGateway<real>>)
    ensures gateway.Some? <==> entered.Some? && entered.value > 0.0
    ensures gateway.Some? ==> fresh(gateway.value) && gateway.value.Valid() && gateway.value.history == []
    ensures gateway.Some? ==> gateway.value.amount == entered.value * 100.0 && gateway.value.hasHandler
    ensures gateway.Some? ==> gateway.value.captured == entered.value
  {
    var amount := EnteredAmount(entered);
    if amount.None? {
      return None;
    }
    var g := new MockGateway.Open(amount.value * 100.0, true, amount.value);
    gateway := Some(g);
  }

  /** The receipt the gateway hands over always names its payment, so the credit is logged under that id. */
  lemma ReceiptNamesTheCredit(p: string, o: string, s: string, nowMillis: nat)
    ensures PaymentTxId(MakeReceipt(p, o, s).paymentId, nowMillis) == MakeReceipt(p, o, s).paymentId
  {
  }
}

=== FILE: records.dfy ===
/**
 * The records the dashboard keeps in its stored profile: wallet
 * transactions and shipments, plus the create-shipment form fields the
 * checkout reads. Amounts are rupees; `parseFloat` results are an
 * `Option<real>`, `None` standing for NaN.
 */
module Records {

  datatype Option<T> = None | Some(value: T)

  /** The `type` field of a wallet transaction. */
  datatype TxType = Credit | Debit

  /** The `status` labels transactions are created with; every one is terminal. */
  datatype TxStatus = Success | Processed | Completed

  /**
   * One entry of `wallet.transactions`. The source's `method` field is
   * called `channel` here, `method` being a Dafny keyword.
   */
  datatype Transaction = Transaction(
    id: string,
    date: string,
    desc: string,
    channel: string,
    amount: real,
    kind: TxType,
    status: TxStatus)

  /** One entry of `shipments`; `amount` is the rounded price in rupees. */
  datatype Shipment = Shipment(
    id: string,
    customer: string,
    origin: string,
    destination: string,
    date: string,
    status: string,
    amount: int)

  /** The fields of the create-shipment form that checkout reads. */
  datatype ShipmentForm = ShipmentForm(
    senderName: string,
    senderCity: string,
    receiverCity: string,
    receiverPin: string,
    weight: Option<real>,
    service: string)

  function DigitChar(d: nat): (c: char)
    requires d < 10
    ensures '0' <= c <= '9'
  {
    ('0' as int + d) as char
  }

  /** Decimal digits of `n`, without leading zeros, as a template literal prints it. */
  function NatToString(n: nat): (s: string)
    ensures |s| >= 1
    ensures forall i :: 0 <= i < |s| ==> '0' <= s[i] <= '9'
    ensures s[0] == '0' ==> n == 0
  {
    if n < 10 then [DigitChar(n)] else NatToString(n / 10) + [DigitChar(n % 10)]
  }

  /** Decimal rendering of an integer, with a leading minus sign exactly for negatives. */
  function IntToString(n: int): (s: string)
    ensures |s| >= 1
    ensures s[0] == '-' <==> n < 0
  {
    if n < 0 then "-" + NatToString(-n) else NatToString(n)
  }
}

=== FILE: scenarios.dfy ===
/**
 * Client code driving the classes through the page's flows: each method
 * replays one user interaction, and its assertions are what the contracts
 * of `Profile`, `MockGateway` and `RequestTopUp` alone let a caller conclude.
 */
module Scenarios {
  import opened Records
  import opened Ledger
  import opened Gateway
  import opened ProfileStore

  /** A withdrawal of 1000 from the seeded wallet is refused and changes nothing. */
  method WithdrawFromEmptyWallet()
  {
    var p := new Profile();
    var outcome := p.Withdraw(Some(1000.0), true, 1, "2025-01-01T00:00:00.000Z");
    assert outcome == InsufficientBalance;
    assert p.balance == 0.0 && p.transactions == [];
  }

  /**
   * Add money 10: the gateway opens for 1000 paise; Pay is clicked twice,
   * the timer fires and the handler credits 10; a second timer event
   * credits nothing.
   */
  method TopUpThroughGateway(p: Profile)
    requires p.Valid() && p.balance == 0.0 && p.transactions == []
    modifies p
  {
    var gw := RequestTopUp(Some(10.0));
    assert gw.Some?;
    var g := gw.value;
    assert g.amount == 1000.0;
    g.Pay();
    g.Pay();
    var receipt := p.TopUpTimerFires(g, "a1", "b2", "c3", 2, "2025-01-01T00:00:02.000Z");
    assert receipt.Some? && g.handlerCalls == 1;
    assert p.balance == 10.0 && |p.transactions| == 1;
    assert p.transactions[0].kind == Credit && p.transactions[0].amount == 10.0;
    assert p.transactions[0].id == "pay_a1";
    receipt := p.TopUpTimerFires(g, "d4", "e5", "f6", 3, "2025-01-01T00:00:03.000Z");
    assert receipt.None? && p.balance == 10.0;
  }

  /** An invalid amount opens no gateway. */
  method TopUpRejected()
  {
    var gw := RequestTopUp(Some(-5.0));
    assert gw.None?;
    gw := RequestTopUp(None);
    assert gw.None?;
  }

  /** Closing before Pay: the Pay button is gone and the handler never runs. */
  method CloseBeforePay()
  {
    var g := new MockGateway<()>.Open(50000.0, true, ());
    g.Close();
    g.Pay();
    var receipt := g.TimerFires("x", "y", "z");
    assert receipt.None? && g.handlerCalls == 0;
  }

  /** A click inside the modal does not close it; a click on the backdrop does. */
  method ClickInsideThenOutside()
  {
    var g := new MockGateway<()>.Open(50000.0, true, ());
    g.ClickOverlay(false);
    assert g.attached;
    g.ClickOverlay(true);
    assert !g.attached && !g.timerArmed;
  }

  /** Pay, then close at once: the armed timer still calls the handler. */
  method CloseAfterPay()
  {
    var g := new MockGateway<()>.Open(50000.0, true, ());
    g.Pay();
    g.Close();
    var receipt := g.TimerFires("x", "y", "z");
    assert receipt.Some? && g.handlerCalls == 1;
    assert receipt.value.paymentId == "pay_x";
  }

  /**
   * A standard 1 kg parcel (price 200) from an empty wallet: the checkout
   * routes through the gateway; its handler credits and debits 200, so the
   * balance stays 0 with two new transactions and one new shipment.
   */
  method CheckoutThroughGateway(p: Profile)
    requires p.Valid() && p.balance == 0.0 && p.transactions == [] && p.shipments == []
    modifies p
  {
    var form := ShipmentForm("Ravi", "Pune", "Delhi", "110001", Some(1.0), "Standard");
    assert ShipmentPrice(form) == 200;
    var route, gw := p.SubmitShipment(form, true, "2025-01-01T00:00:00.000Z", 0.5, 0.5);
    assert route == ViaGateway && gw.Some?;
    assert p.balance == 0.0 && p.shipments == [];
    var g := gw.value;
    g.Pay();
    var receipt := p.CheckoutTimerFires(g, "p", "o", "s", 3, "2025-01-01T00:00:02.000Z", 0.5, 0.5);
    assert receipt.Some?;
    assert p.balance == 0.0 && |p.transactions| == 2 && |p.shipments| == 1;
    assert p.transactions[0].kind == Debit && p.transactions[1].kind == Credit;
  }

  /** With enough balance the same parcel is paid from the wallet and no gateway opens. */
  method CheckoutFromWallet(p: Profile)
    requires p.Valid() && p.balance == 500.0
    modifies p
  {
    var form := ShipmentForm("Ravi", "Pune", "Delhi", "110001", Some(1.0), "Standard");
    assert ShipmentPrice(form) == 200;
    var route, gw := p.SubmitShipment(form, false, "2025-01-01T00:00:00.000Z", 0.5, 0.5);
    assert route == FromWallet && gw.None?;
    assert p.balance == 300.0 && p.shipments[0].status == "Pending";
  }
}

=== FILE: settings.dfy ===
/**
 * The settings page rules: which new password is accepted, and how the
 * stored full name is split into the first/last name fields and joined
 * back when the fields are auto-saved.
 */
module Settings {

  datatype PasswordVerdict = MissingField | Mismatch | TooShort | Accepted

  /** "Update Password": both fields filled, equal, and at least 6 characters; checked in that order. */
  function CheckPassword(newPass: string, confirmPass: string): (v: PasswordVerdict)
    ensures v == Accepted <==> newPass == confirmPass && |newPass| >= 6
    ensures v == MissingField <==> newPass == "" || confirmPass == ""
    ensures v == Mismatch ==> newPass != confirmPass
    ensures v == TooShort ==> newPass == confirmPass && 0 < |newPass| < 6
  {
    if newPass == "" || confirmPass == "" then MissingField
    else if newPass != confirmPass then Mismatch
    else if |newPass| < 6 then TooShort
    else Accepted
  }

  // ----- split(" ") and join(" ") -----

  /** `s.split(" ")`: the pieces between single spaces, empty pieces included. */
  function SplitOnSpace(s: string): (parts: seq<string>)
    ensures |parts| >= 1
    ensures forall i :: 0 <= i < |parts| ==> ' ' !in parts[i]
    decreases |s|
  {
    if s == [] then [""]
    else
      var rest := SplitOnSpace(s[1..]);
      if s[0] == ' ' then [""] + rest
      else [[s[0]] + rest[0]] + rest[1..]
  }

  /** `parts.join(" ")`. */
  function JoinWithSpace(parts: seq<string>): string
  {
    if |parts| == 0 then ""
    else if |parts| == 1 then parts[0]
    else parts[0] + " " + JoinWithSpace(parts[1..])
  }

  /** Joining the pieces of a split gives back the string. */
  lemma {:induction false} JoinSplit(s: string)
    ensures JoinWithSpace(SplitOnSpace(s)) == s
    decreases |s|
  {
    if s != [] {
      JoinSplit(s[1..]);
      var rest := SplitOnSpace(s[1..]);
      if s[0] == ' ' {
        assert ([""] + rest)[1..] == rest;
        assert s == [' '] + s[1..];
      } else {
        var parts := [[s[0]] + rest[0]] + rest[1..];
        assert parts[1..] == rest[1..];
        if |rest| == 1 {
          assert s == [s[0]] + rest[0];
        } else {
          assert s == [s[0]] + (rest[0] + " " + JoinWithSpace(rest[1..]));
        }
      }
    }
  }

  // ----- trim() -----

  /**
   * The characters `trim` removes: the white space of ECMAScript (tab,
   * vertical tab, form feed, the byte-order mark and the space separators
   * of Unicode category Zs) and its line terminators (LF, CR, U+2028, U+2029).
   */
  predicate IsSpace(c: char)
  {
    || c == '\t' || c == '\n' || c == '\r' || c == ' '
    || c as int == 0x0B || c as int == 0x0C || c as int == 0xA0 || c as int == 0x1680
    || 0x2000 <= c as int <= 0x200A
    || c as int == 0x2028 || c as int == 0x2029 || c as int == 0x202F || c as int == 0x205F
    || c as int == 0x3000 || c as int == 0xFEFF
  }

  /** The scan `trim` makes from the front: the first index in lo..hi that holds a non-space, or hi. */
  function SkipSpace(s: string, lo: nat, hi: nat): (k: nat)
    requires lo <= hi <= |s|
    ensures lo <= k <= hi
    ensures forall i :: lo <= i < k ==> IsSpace(s[i])
    ensures k == hi || !IsSpace(s[k])
    decreases hi - lo
  {
    if lo < hi && IsSpace(s[lo]) then SkipSpace(s, lo + 1, hi) else lo
  }

  /** The scan `trim` makes from the back: the index just after the last non-space before hi, or 0. */
  function SkipSpaceBack(s: string, hi: nat): (e: nat)
    requires hi <= |s|
    ensures e <= hi
    ensures forall i :: e <= i < hi ==> IsSpace(s[i])
    ensures e == 0 || !IsSpace(s[e - 1])
  {
    if hi > 0 && IsSpace(s[hi - 1]) then SkipSpaceBack(s, hi - 1) else hi
  }

  /** `r` is `s` with the first `k` characters and everything after `k + |r|` cut, all of them whitespace. */
  predicate CutsSpaceAt(s: string, r: string, k: int)
  {
    && 0 <= k <= |s| - |r| && r == s[k..k + |r|]
    && (forall i :: 0 <= i < k ==> IsSpace(s[i]))
    && (forall i :: k + |r| <= i < |s| ==> IsSpace(s[i]))
  }

  /** No whitespace at either end of `r`. */
  predicate Untrimmed(r: string)
  {
    r == [] || (!IsSpace(r[0]) && !IsSpace(r[|r| - 1]))
  }

  /**
   * `s.trim()`: the result is `s` with only whitespace cut from its two
   * ends, no whitespace is left at either end, and a string without any
   * there is unchanged.
   */
  function Trim(s: string): (r: string)
    ensures |r| <= |s|
    ensures exists k :: CutsSpaceAt(s, r, k)
    ensures Untrimmed(r)
    ensures Untrimmed(s) ==> r == s
  {
    var e := SkipSpaceBack(s, |s|);
    var k := SkipSpace(s, 0, e);
    assert CutsSpaceAt(s, s[k..e], k);
    s[k..e]
  }

  /** Trim's result is the only piece of `s` that cuts whitespace alone and has none left at its ends. */
  lemma TrimUnique(s: string, r: string, k: int)
    requires CutsSpaceAt(s, r, k) && Untrimmed(r)
    ensures r == Trim(s)
  {
    var e := SkipSpaceBack(s, |s|);
    var j := SkipSpace(s, 0, e);
    assert Trim(s) == s[j..e];
    if r == [] {
      // every character of s is whitespace, so both scans meet at 0
      assert e == 0;
    } else {
      // s[k] and s[k + |r| - 1] are the outermost non-spaces of s
      assert s[k] == r[0] && s[k + |r| - 1] == r[|r| - 1];
      assert e == k + |r|;
      assert j == k;
    }
  }

  // ----- the name fields -----

  /** A string splits into one piece exactly when it contains no space. */
  lemma {:induction false} SplitCount(s: string)
    ensures |SplitOnSpace(s)| == 1 <==> ' ' !in s
    decreases |s|
  {
    if s != [] {
      SplitCount(s[1..]);
      assert s == [s[0]] + s[1..];
    }
  }

  /** `const [first, ...last] = name.split(" ")`, first field. */
  function FirstName(name: string): (first: string)
    ensures ' ' !in first
  {
    SplitOnSpace(name)[0]
  }

  /**
   * The last-name field: the remaining pieces joined with single spaces,
   * i.e. everything after the first space, and empty when there is none.
   */
  function LastName(name: string): (last: string)
    ensures ' ' !in name ==> last == ""
    ensures ' ' in name ==> FirstName(name) + " " + last == name
  {
    SplitCount(name);
    JoinSplit(name);
    JoinWithSpace(SplitOnSpace(name)[1..])
  }

  /** The auto-saved name: `${first} ${last}`.trim(). */
  function ComposedName(first: string, last: string): (name: string)
    ensures Untrimmed(name)
    ensures last == "" && Untrimmed(first) ==> name == first
    ensures first != [] && last != [] && !IsSpace(first[0]) && !IsSpace(last[|last| - 1]) ==> name == first + " " + last
  {
    OneWordUntrimmed(first, last);
    JoinedFieldsUntrimmed(first, last);
    Trim(first + " " + last)
  }

  /** A first name without outer whitespace and an empty last name compose to the first name. */
  lemma OneWordUntrimmed(first: string, last: string)
    ensures last == "" && Untrimmed(first) ==> Trim(first + " " + last) == first
  {
    if last == "" && Untrimmed(first) {
      assert first + " " + last == first + " ";
      TrimPadded(first);
    }
  }

  /** Two fields without outer whitespace, joined by a space, have nothing to trim. */
  lemma JoinedFieldsUntrimmed(first: string, last: string)
    ensures first != [] && last != [] && !IsSpace(first[0]) && !IsSpace(last[|last| - 1]) ==>
              Trim(first + " " + last) == first + " " + last
  {
    if first != [] && last != [] {
      var joined := first + " " + last;
      assert joined[0] == first[0];
      assert joined[|joined| - 1] == last[|last| - 1];
    }
  }

  /** A trailing space makes no difference once trimmed. */
  lemma TrimPadded(s: string)
    ensures Trim(s + " ") == Trim(s)
  {
    var r := Trim(s);
    var k :| CutsSpaceAt(s, r, k);
    var padded := s + " ";
    assert padded[k..k + |r|] == s[k..k + |r|];
    assert forall i :: 0 <= i < k ==> padded[i] == s[i];
    assert forall i :: k + |r| <= i < |s| ==> padded[i] == s[i];
    assert IsSpace(padded[|s|]);
    assert CutsSpaceAt(padded, r, k);
    TrimUnique(padded, r, k);
  }

  /** The fields of a name without spaces: the whole name, and an empty last name. */
  lemma {:induction false} FieldsOfOneWord(name: string)
    requires ' ' !in name
    ensures FirstName(name) == name && LastName(name) == ""
  {
    SplitCount(name);
    JoinSplit(name);
  }

  /** Auto-saving the fields as they were filled stores the old name trimmed, and nothing else. */
  lemma NameRoundTrip(name: string)
    ensures ComposedName(FirstName(name), LastName(name)) == Trim(name)
  {
    if ' ' !in name {
      FieldsOfOneWord(name);
      assert FirstName(name) + " " + LastName(name) == name + " ";
      TrimPadded(name);
    }
  }

  /** For a name without surrounding whitespace, the round trip is exact. */
  lemma TrimmedNameRoundTrip(name: string)
    requires Untrimmed(name)
    ensures ComposedName(FirstName(name), LastName(name)) == name
  {
    NameRoundTrip(name);
  }
}

=== FILE: shipment_list.dfy ===
/**
 * The shipments page: the status/date filter, the page slice of ten rows,
 * and the page number the Previous/Next buttons and "Apply Filters" move.
 */
module ShipmentList {
  import opened Records

  /** A shipment passes when each filter that is set (non-empty) matches: status exactly, date as a prefix. */
  predicate Matches(s: Shipment, status: string, date: string)
  {
    (status == "" || s.status == status) && (date == "" || date <= s.date)
  }

  function Filter(ships: seq<Shipment>, status: string, date: string): (r: seq<Shipment>)
    ensures |r| <= |ships|
    ensures forall i :: 0 <= i < |r| ==> Matches(r[i], status, date)
  {
    if ships == [] then []
    else if Matches(ships[0], status, date) then [ships[0]] + Filter(ships[1..], status, date)
    else Filter(ships[1..], status, date)
  }

  /** `sub` is `s` with some entries deleted and the rest kept in order. */
  predicate IsSubsequence<T(==)>(sub: seq<T>, s: seq<T>)
    decreases |s|
  {
    if s == [] then sub == []
    else (sub != [] && sub[0] == s[0] && IsSubsequence(sub[1..], s[1..])) || IsSubsequence(sub, s[1..])
  }

  lemma {:induction false} FilterIsSubsequence(ships: seq<Shipment>, status: string, date: string)
    ensures IsSubsequence(Filter(ships, status, date), ships)
    decreases |ships|
  {
    if ships != [] {
      FilterIsSubsequence(ships[1..], status, date);
      var rest := Filter(ships[1..], status, date);
      if Matches(ships[0], status, date) {
        assert ([ships[0]] + rest)[1..] == rest;
      }
    }
  }

  /** Each shipment occurs in the result exactly as often as in the input if it matches, and never otherwise. */
  lemma {:induction false} FilterCounts(ships: seq<Shipment>, status: string, date: string, x: Shipment)
    ensures multiset(Filter(ships, status, date))[x] == if Matches(x, status, date) then multiset(ships)[x] else 0
    decreases |ships|
  {
    if ships != [] {
      FilterCounts(ships[1..], status, date, x);
      assert ships == [ships[0]] + ships[1..];
    }
  }

  lemma FilterMembership(ships: seq<Shipment>, status: string, date: string, x: Shipment)
    ensures x in Filter(ships, status, date) <==> x in ships && Matches(x, status, date)
  {
    FilterCounts(ships, status, date, x);
    assert x in Filter(ships, status, date) <==> multiset(Filter(ships, status, date))[x] > 0;
    assert x in ships <==> multiset(ships)[x] > 0;
  }

  /** With both filters empty every shipment is kept, in its order. */
  lemma {:induction false} NoFiltersKeepAll(ships: seq<Shipment>)
    ensures Filter(ships, "", "") == ships
    decreases |ships|
  {
    if ships != [] {
      NoFiltersKeepAll(ships[1..]);
      assert ships == [ships[0]] + ships[1..];
    }
  }

  // ----- pagination -----

  /** `currentState.itemsPerPage`, never changed by the page. */
  const ItemsPerPage: nat := 10

  /** `Math.ceil(totalItems / itemsPerPage)`. */
  function TotalPages(totalItems: nat): (n: nat)
    ensures totalItems <= n * ItemsPerPage < totalItems + ItemsPerPage
  {
    (totalItems + ItemsPerPage - 1) / ItemsPerPage
  }

  /** Index of the first row of a page. */
  function PageStart(page: int): int
  {
    (page - 1) * ItemsPerPage
  }

  function Min(a: int, b: int): int
  {
    if a <= b then a else b
  }

  /** `filtered.slice(start, start + itemsPerPage)`, where `slice` clamps both ends to the length. */
  function PageRows<T>(items: seq<T>, page: int): (rows: seq<T>)
    requires page >= 1
    ensures |rows| <= ItemsPerPage
    ensures |rows| == if PageStart(page) >= |items| then 0 else Min(ItemsPerPage, |items| - PageStart(page))
    ensures forall k :: 0 <= k < |rows| ==> PageStart(page) + k < |items| && rows[k] == items[PageStart(page) + k]
  {
    var start := PageStart(page);
    var lo := if start < |items| then start else |items|;
    var hi := if start + ItemsPerPage < |items| then start + ItemsPerPage else |items|;
    items[lo..hi]
  }

  /** Every row of the list is shown on page `i / 10 + 1`, and that page exists. */
  lemma RowOnItsPage<T>(items: seq<T>, i: nat)
    requires i < |items|
    ensures 1 <= i / ItemsPerPage + 1 <= TotalPages(|items|)
    ensures |PageRows(items, i / ItemsPerPage + 1)| > i % ItemsPerPage
    ensures PageRows(items, i / ItemsPerPage + 1)[i % ItemsPerPage] == items[i]
  {
    var page := i / ItemsPerPage + 1;
    assert PageStart(page) + i % ItemsPerPage == i;
  }

  /** The "Showing a-b of n" label: `a` is 0 for an empty list, else `start + 1`; `b` is `min(start + 10, n)`. */
  function ShowingFrom(totalItems: nat, page: int): (a: int)
    ensures totalItems == 0 ==> a == 0
    ensures totalItems > 0 && page >= 1 ==> a >= 1 && a % ItemsPerPage == 1
  {
    if totalItems == 0 then 0 else PageStart(page) + 1
  }

  function ShowingTo(totalItems: nat, page: int): (b: int)
    ensures b <= totalItems && b <= PageStart(page) + ItemsPerPage
    ensures b == totalItems || b == PageStart(page) + ItemsPerPage
  {
    Min(PageStart(page) + ItemsPerPage, totalItems)
  }

  /** On an existing page of a non-empty list the label counts exactly the rows shown. */
  lemma ShowingCountsRows<T>(items: seq<T>, page: int)
    requires 1 <= page <= TotalPages(|items|) && |items| > 0
    ensures ShowingTo(|items|, page) - ShowingFrom(|items|, page) + 1 == |PageRows(items, page)|
  {
  }

  /** On an existing page, "Showing a-b" names the page's first row as entry `a` and its last row as entry `b` (1-based). */
  lemma ShowingNamesPageEnds<T>(items: seq<T>, page: int)
    requires 1 <= page <= TotalPages(|items|)
    ensures |PageRows(items, page)| > 0
    ensures 1 <= ShowingFrom(|items|, page) <= ShowingTo(|items|, page) <= |items|
    ensures PageRows(items, page)[0] == items[ShowingFrom(|items|, page) - 1]
    ensures PageRows(items, page)[|PageRows(items, page)| - 1] == items[ShowingTo(|items|, page) - 1]
  {
  }

  /** The Previous button: one page back unless on page 1. */
  function PrevPage(page: int): (p: int)
    ensures page >= 1 ==> 1 <= p <= page
    ensures page > 1 ==> p == page - 1
    ensures page <= 1 ==> p == page
  {
    if page > 1 then page - 1 else page
  }

  /** The Next button: one page on unless already on the last (the count at render time). */
  function NextPage(page: int, totalPages: nat): (p: int)
    ensures page <= p <= page + 1
    ensures page < totalPages ==> p == page + 1
    ensures page >= totalPages ==> p == page
  {
    if page < totalPages then page + 1 else page
  }

  function Max(a: int, b: int): int
  {
    if a >= b then a else b
  }

  /** Previous and Next keep the page within 1 .. max(1, ceil(total / 10)). */
  lemma PageMovesStayInRange(page: int, totalItems: nat)
    requires 1 <= page <= Max(1, TotalPages(totalItems))
    ensures 1 <= PrevPage(page) <= Max(1, TotalPages(totalItems))
    ensures 1 <= NextPage(page, TotalPages(totalItems)) <= Max(1, TotalPages(totalItems))
  {
  }

  /** The page after pressing Next `k` times. */
  function NextPresses(page: int, totalPages: nat, k: nat): int
    decreases k
  {
    if k == 0 then page else NextPresses(NextPage(page, totalPages), totalPages, k - 1)
  }

  /** From a page in range, `k` presses of Next reach page `min(page + k, max(1, totalPages))`: one page per press, stopping at the last. */
  lemma {:induction false} NextPressesReach(totalPages: nat, k: nat, page: int)
    requires 1 <= page <= Max(1, totalPages)
    ensures NextPresses(page, totalPages, k) == Min(page + k, Max(1, totalPages))
    decreases k
  {
    if k > 0 {
      NextPressesReach(totalPages, k - 1, NextPage(page, totalPages));
    }
  }

  /** A page in range shows a row exactly when the list is non-empty. */
  lemma PageInRangeShowsRows<T>(items: seq<T>, page: int)
    requires 1 <= page <= Max(1, TotalPages(|items|))
    ensures |PageRows(items, page)| > 0 <==> |items| > 0
  {
  }

  /** `currentState`: the page number and the two filters. */
  class ListState {
    var page: int
    var statusFilter: string
    var dateFilter: string

    ghost predicate Valid()
      reads this
    {
      page >= 1
    }

    constructor ()
      ensures Valid() && page == 1 && statusFilter == "" && dateFilter == ""
    {
      page, statusFilter, dateFilter := 1, "", "";
    }

    /** "Apply Filters": take both filter values and go back to page 1. */
    method ApplyFilters(status: string, date: string)
      modifies this
      ensures Valid()
      ensures statusFilter == status && dateFilter == date && page == 1
    {
      statusFilter, dateFilter := status, date;
      page := 1;
    }

    method Prev()
      requires Valid()
      modifies this
      ensures Valid()
      ensures page == PrevPage(old(page))
      ensures statusFilter == old(statusFilter) && dateFilter == old(dateFilter)
    {
      if page > 1 {
        page := page - 1;
      }
    }

    /** Next, with the page count the last render computed. */
    method Next(totalPages: nat)
      requires Valid()
      modifies this
      ensures Valid()
      ensures page == NextPage(old(page), totalPages)
      ensures statusFilter == old(statusFilter) && dateFilter == old(dateFilter)
    {
      if page < totalPages {
        page := page + 1;
      }
    }

    /** What `renderShipmentsPage` computes from the state: the rows shown, the filtered count and the page count. */
    method Render(ships: seq<Shipment>) returns (rows: seq<Shipment>, totalItems: nat, totalPages: nat)
      requires Valid()
      ensures totalItems == |Filter(ships, statusFilter, dateFilter)| && totalPages == TotalPages(totalItems)
      ensures |rows| <= ItemsPerPage
      ensures forall k :: 0 <= k < |rows| ==> rows[k] in ships && Matches(rows[k], statusFilter, dateFilter)
      ensures rows == PageRows(Filter(ships, statusFilter, dateFilter), page)
    {
      var filtered := Filter(ships, statusFilter, dateFilter);
      totalItems := |filtered|;
      totalPages := TotalPages(totalItems);
      rows := PageRows(filtered, page);
      forall k | 0 <= k < |rows| ensures rows[k] in ships {
        FilterMembership(ships, statusFilter, dateFilter, rows[k]);
      }
    }
  }
}

=== FILE: status.dfy ===
/**
 * Shipment statuses on the dashboard: the four stat-card counts and the
 * CSS class a status badge gets.
 */
module Status {
  import opened Records
  import ShipmentList

  /** `shipments.filter(s => s.status === status).length`. */
  function CountStatus(ships: seq<Shipment>, status: string): (n: nat)
    ensures n <= |ships|
  {
    if ships == [] then 0
    else (if ships[0].status == status then 1 else 0) + CountStatus(ships[1..], status)
  }

  datatype Stats = Stats(total: nat, inTransit: nat, delivered: nat, exceptions: nat)

  /**
   * The stat cards of the dashboard home page: all shipments, then those
   * "In Transit", "Delivered" and "Exception", each the length of the
   * shipments page's list filtered on that status.
   */
  function DashboardStats(ships: seq<Shipment>): (st: Stats)
    ensures st.total == |ships|
    ensures st.inTransit == |ShipmentList.Filter(ships, "In Transit", "")|
    ensures st.delivered == |ShipmentList.Filter(ships, "Delivered", "")|
    ensures st.exceptions == |ShipmentList.Filter(ships, "Exception", "")|
    ensures st.inTransit <= st.total && st.delivered <= st.total && st.exceptions <= st.total
    ensures ships == [] ==> st == Stats(0, 0, 0, 0)
  {
    CountIsFilterLength(ships, "In Transit");
    CountIsFilterLength(ships, "Delivered");
    CountIsFilterLength(ships, "Exception");
    Stats(|ships|, CountStatus(ships, "In Transit"), CountStatus(ships, "Delivered"), CountStatus(ships, "Exception"))
  }

  /** A status count is the length of the shipments page's list filtered on that status alone. */
  lemma {:induction false} CountIsFilterLength(ships: seq<Shipment>, status: string)
    requires status != ""
    ensures CountStatus(ships, status) == |ShipmentList.Filter(ships, status, "")|
    decreases |ships|
  {
    if ships != [] {
      CountIsFilterLength(ships[1..], status);
    }
  }

  /** The three status cards never add up to more than the total card. */
  lemma {:induction false} StatusCardsWithinTotal(ships: seq<Shipment>)
    ensures var st := DashboardStats(ships); st.inTransit + st.delivered + st.exceptions <= st.total
    decreases |ships|
  {
    if ships != [] {
      StatusCardsWithinTotal(ships[1..]);
    }
  }

  /** A new "Pending" shipment adds one to the total and leaves the three status cards unchanged. */
  lemma PendingShipmentCounts(s: Shipment, ships: seq<Shipment>)
    requires s.status == "Pending"
    ensures DashboardStats([s] + ships) == DashboardStats(ships).(total := |ships| + 1)
  {
    assert ([s] + ships)[1..] == ships;
  }

  // ----- getStatusClass -----

  /** `toLowerCase` on one character, for the ASCII letters. */
  function LowerChar(c: char): char
  {
    if 'A' <= c <= 'Z' then (c as int + 32) as char else c
  }

  /** `toLowerCase`, for the ASCII letters: no capital is left, and every other character stays. */
  function ToLower(s: string): (r: string)
    ensures |r| == |s|
    ensures forall i :: 0 <= i < |r| ==> !('A' <= r[i] <= 'Z')
    ensures forall i :: 0 <= i < |s| && !('A' <= s[i] <= 'Z') ==> r[i] == s[i]
    ensures forall i :: 0 <= i < |s| && 'A' <= s[i] <= 'Z' ==> r[i] as int == s[i] as int + 32
  {
    seq(|s|, i requires 0 <= i < |s| => LowerChar(s[i]))
  }

  lemma ToLowerIdempotent(s: string)
    ensures ToLower(ToLower(s)) == ToLower(s)
  {
  }

  /** The lower-cased statuses that get a badge class. */
  predicate KnownStatus(key: string)
  {
    key == "delivered" || key == "in transit" || key == "pending" || key == "exception"
  }

  /** `getStatusClass`: the badge class of a status, compared case-insensitively; "" for any other status. */
  function StatusClass(status: string): (cls: string)
    ensures cls == "delivered" || cls == "transit" || cls == "pending" || cls == "warning" || cls == ""
    ensures cls != "" <==> KnownStatus(ToLower(status))
  {
    var key := ToLower(status);
    if key == "delivered" then "delivered"
    else if key == "in transit" then "transit"
    else if key == "pending" then "pending"
    else if key == "exception" then "warning"
    else ""
  }

  /** Case does not matter: a status and its lower-cased form get the same class. */
  lemma StatusClassIgnoresCase(status: string)
    ensures StatusClass(ToLower(status)) == StatusClass(status)
  {
    ToLowerIdempotent(status);
  }

  /** The statuses the page itself writes and counts get their badges. */
  lemma StatusClassOfPageStatuses()
    ensures StatusClass("Delivered") == "delivered"
    ensures StatusClass("In Transit") == "transit"
    ensures StatusClass("Pending") == "pending"
    ensures StatusClass("Exception") == "warning"
  {
    assert ToLower("Delivered") == "delivered";
    assert ToLower("In Transit") == "in transit";
    assert ToLower("Pending") == "pending";
    assert ToLower("Exception") == "exception";
  }
}
